=== FILE: README.md ===
# Sales report core: normalisation, segments and aggregates

This project models the data pipeline inside the sales-report script `Streamlit.py`.
The script reads an order export with one row per order line. Each row has an order number
(`Pedido #`), product text (`Producto(s)`), net sales (`Ventas netas`), status (`Estado`),
payment method (`pago`) and attribution (`atribucion`). Optional customer-type and
payment-sub-type columns may also be present. From these rows the script computes headline
metrics, top groups, a returning/new customer analysis and an Addi payment analysis. The model
covers all of that as pure Dafny functions over immutable rows, with no I/O and no rendering.

Modules:

- `Text`: the parts of Python `str` behaviour the script relies on. These are `strip()`
  (with Python's whitespace set), ASCII `lower()`, `in`, string `<` and decimal digits.
- `Quantity`: `extraer_cantidad`, the leading `<digits>x` / `<digits>×` count.
- `Money`: deleting `$` and `,` from the net-sales text.
- `Seqs`: order-preserving filters (`df[mask]`) and the subsequence relation.
- `Frame`: cells (`Missing` for NaN, `Str` for text), rows, column assignment,
  preprocessing (lines 44 and 47) and categorical normalisation.
- `Resolve`: the ordered strategies that find the customer-type and payment-sub-type columns.
- `Segments`: Completed, Refunded, Returning, New, Addi-Total, Addi-Shop and Addi-Normal.
- `Aggregate`: sums, distinct order counts, zero-guarded ratio and average, group-by sums
  and the top group by quantity.
- `Report`: the pipeline from the loaded sheet to the report values. It fails where the script
  would stop while computing them (see "Missing fixed columns" below for the stops it does not
  model).

The pandas column assignments `tipo_cliente_norm`, `tipo_pago`, `pago_norm` and `tipo_pago_norm`
are modelled as `Frame.Assign`. The two preprocessing columns `Cantidad` and
`Ventas netas (num)` are written row by row by `Frame.WithDerived`, and `Frame.Prepare` appends
their names to the column list. So the column list that the resolvers search holds the derived
columns exactly as the script's `df.columns` does at that point. The positional fallback for the
payment sub-type can land on one of them, and then reads its values.

Behaviour of the script that the model keeps:

- The status is only lower-cased, not stripped (line 49). So `" Completed"` is not completed.
- The quantity can be 0: `"0x"` gives 0 (lines 39-41). It is not always at least 1.
  `Quantity.ZeroCountGivesZero` states this.
- Only lower-case `x` and `×` are quantity markers (line 39). An upper-case `X` is not.
- An empty group-by at lines 65, 69 or 73 stops the script (`index[0]` on an empty series).
  The model reports `NoGroups(column)`. No placeholder value is substituted.
- Groups with equal quantity: line 69 (`nlargest(1)` over the label-sorted group-by) picks the
  smallest label. Lines 64 and 73 use `sort_values` with its default unstable sort, so which
  tied label they pick is not fixed.

## Model

| member | source | states |
|---|---|---|
| `Text.Trim` | Streamlit.py:39 | the stripped text is a slice of the input with no whitespace at either end, and everything outside that slice is whitespace; so exactly the leading and trailing whitespace goes, and already-stripped text is returned unchanged |
| `Text.StripBothEnds` | Streamlit.py:39 | cutting only whitespace from the left and then only whitespace from the right leaves the whitespace-bounded core of the text |
| `Text.TrimLeft` | Streamlit.py:39 | the result is a suffix of the input, and everything cut off is whitespace |
| `Text.TrimRight` | Streamlit.py:39 | the result is a prefix of the input, and everything cut off is whitespace |
| `Text.TrimKeepsCore` | Streamlit.py:39 | stripping never cuts into text between a non-blank first character and a later non-blank character |
| `Text.LowerChar` | Streamlit.py:49 | one character of `lower()`: the result is never upper-case, keeps whether it is whitespace, and differs only for A-Z, by the ASCII offset 32 |
| `Text.Lower` | Streamlit.py:49 | lower-casing keeps the length and the whitespace positions, leaves no upper-case letter, changes only A-Z, and leaves lower-case text alone |
| `Text.Norm` | Streamlit.py:196 | the strip-then-lower result is both trimmed and lower-case |
| `Text.NormOfCore` | Streamlit.py:196 | the normalised value is the stripped core of the text, lower-cased character by character |
| `Text.NormIdempotent` | Streamlit.py:196 | normalising twice equals normalising once |
| `Text.Contains` | Streamlit.py:187 | Python's `in` on strings (also lines 398-399), tried at every start position; characterised by `Text.ContainsIffOccurs` |
| `Text.ContainsIffOccurs` | Streamlit.py:187 | the `in` search succeeds exactly when some slice of the name equals the keyword |
| `Text.Decimal` | Streamlit.py:44 | `str()` of the integer `Cantidad` value (the text line 429 reads when the positional fallback lands on `Cantidad`): all digits with no leading zero (only 0 starts with `0`), and `int()` reads it back as that number |
| `Text.DigitsValue` | Streamlit.py:41 | `int()` of a digit string, leading zeros allowed; a plain definition, characterised by `Text.Decimal` and `Quantity.QuantityRoundTrip` |
| `Text.LeadingDigits` | Streamlit.py:39 | the count covers only digits, and the character after them (if any) is not a digit |
| `Text.LexLess` | Streamlit.py:69 | Python's `<` on strings, the order of the label-sorted group-by: code point by code point, a proper prefix first; characterised by `Text.LexLessTotal`, `Text.LexLessTransitive` and `Text.LexLessIrreflexive` |
| `Text.LexLessIrreflexive` | Streamlit.py:69 | no label is smaller than itself |
| `Text.LexLessTotal` | Streamlit.py:69 | any two different labels are ordered one way or the other, so a smallest tied label exists |
| `Text.LexLessTransitive` | Streamlit.py:69 | label order is transitive |
| `Quantity.MatchUnique` | Streamlit.py:39 | the pattern `(\d+)[×x]` can match at the start in only one way |
| `Quantity.DigitGroup` | Streamlit.py:39-40 | the digit-group length is found exactly when the pattern matches, and it is the matching length |
| `Quantity.ExtractQuantity` | Streamlit.py:38-42 | text that starts with digits followed by `x`/`×` (after stripping) yields those digits' value, and any other text yields 1 |
| `Quantity.QuantityRoundTrip` | Streamlit.py:38-42 | a number written in decimal, then a marker, then anything, reads back as that number |
| `Quantity.ZeroCountGivesZero` | Streamlit.py:39-41 | `"0x"` yields 0, so the quantity is not always at least 1 |
| `Money.StripMoney` | Streamlit.py:47 | the result has no `$` or `,`, and keeps every other character in its original number and order |
| `Money.StripIdempotent` | Streamlit.py:47 | stripping twice equals stripping once |
| `Seqs.Filter` | Streamlit.py:49-50 | a mask selection keeps exactly the rows satisfying the mask, as an order-preserving subsequence, and each kept row as many times as it occurs |
| `Seqs.SubseqTransitive` | Streamlit.py:444-451 | a selection from a selection is a subsequence of the original rows |
| `Seqs.SubseqMembers` | Streamlit.py:199-209 | every row of a subsequence is a row of the whole, and it is no longer |
| `Seqs.FilterDisjointCount` | Streamlit.py:55-56 | two selections whose masks never both hold together have at most as many rows as the whole |
| `Seqs.FilterKeepsAll` | Streamlit.py:449-451 | a mask true on every row selects the whole sequence |
| `Frame.AsStr` | Streamlit.py:39 | `str()` / `astype(str)` of a cell (also lines 426 and 429): text is kept and an empty cell becomes `'nan'`; a plain definition, used by `Frame.NormPayment` and `Frame.PrepareRow` |
| `Frame.NormCategory` | Streamlit.py:196 | the `fillna('')`, strip, lower normalisation gives trimmed lower-case text, and an empty cell gives `''` |
| `Frame.NormCategoryIdempotent` | Streamlit.py:429 | normalising an already normalised value changes nothing |
| `Frame.StatusIs` | Streamlit.py:49-50 | a status matches when its lower-cased (not stripped) text equals the value, and an empty cell never matches; a plain definition, used by `Segments.StatusSegments` |
| `Frame.NormPayment` | Streamlit.py:426 | the payment normalisation gives trimmed lower-case text; with no `fillna` an empty cell becomes `'nan'`, and on a text cell it agrees with the category normalisation of line 429 |
| `Frame.AddColumn` | Streamlit.py:44 | assigning a new column appends its name, and an existing name keeps its place |
| `Frame.Assign` | Streamlit.py:196 | after `df[name] = v`, every row's `name` cell holds `v` of that row, and every other cell and value is unchanged |
| `Frame.WithDerived` | Streamlit.py:44-47 | a row gets its quantity and amount columns, and no other cell changes |
| `Frame.PrepareRow` | Streamlit.py:44-47 | a row is preprocessed exactly when its stripped sales text parses (or is empty); its quantity is `extraer_cantidad` of the product text; the amount is the parsed value (0 for an empty cell); other columns are untouched |
| `Frame.SalesParse` | Streamlit.py:47 | whether line 47 converts a row: the sales text with `$` and `,` removed parses as a float, and an empty cell converts (to NaN); the failure condition of `Frame.Prepare` and `Report.Generate` |
| `Frame.AbsentColumnIsEmpty` | Streamlit.py:49 | in a well-formed sheet (every row's cells among its columns) a column the sheet lacks reads as empty in every row |
| `Frame.FirstUnparsed` | Streamlit.py:47 | finds the first row whose sales text does not parse, or reports that all parse |
| `Frame.PrepareRows` | Streamlit.py:44-47 | preprocessing succeeds exactly when every row's amount parses, and then it preprocesses each row in place |
| `Frame.Prepare` | Streamlit.py:44-47 | the frame gains `Cantidad` and `Ventas netas (num)`; a failure names a row whose amount does not parse |
| `Frame.PreparedHeaders` | Streamlit.py:176-180 | the `df.columns` the customer-type resolver searches: the sheet's columns, then `Cantidad` and `Ventas netas (num)`; used in the contracts of `Frame.Prepare` and `Report.Generate` |
| `Resolve.FirstIndex` | Streamlit.py:408 | the first position satisfying the test, with none before it; none exactly when no element satisfies it |
| `Resolve.FirstPresent` | Streamlit.py:179-182 | the first known spelling, in list order, that is a column; none exactly when no spelling is a column |
| `Resolve.FirstHeader` | Streamlit.py:186-189 | the first column, in column order, whose name passes the keyword test; none exactly when no name passes |
| `Resolve.CustomerTypeColumn` | Streamlit.py:176-189 | a present known spelling wins over the `tipo`+`cliente` search; otherwise the first matching column; none exactly when both strategies fail |
| `Resolve.NextToPayment` | Streamlit.py:405-414 | the column right after the first `pago`, present exactly when `pago` exists and is not the last column |
| `Resolve.MentionsCustomerType` | Streamlit.py:187 | the lower-cased name contains both `tipo` and `cliente`; a plain definition, and `Text.ContainsIffOccurs` characterises the `in` it uses |
| `Resolve.MentionsPaymentType` | Streamlit.py:398-399 | the lower-cased, stripped name contains both `tipo` and `pago`; a plain definition, characterised through `Text.Trim` and `Text.ContainsIffOccurs` |
| `Resolve.SubtypeColumn` | Streamlit.py:385-419 | known spelling, then the `tipo`+`pago` search, then the column after `pago`, else the blank column, first success wins |
| `Segments.Completed` | Streamlit.py:49 | the rows whose status is `completed`, in order; a filter by `IsCompleted`, characterised by `Seqs.Filter` and `Segments.StatusSegments` |
| `Segments.Refunded` | Streamlit.py:50 | the rows whose status is `refunded`, in order; a filter by `IsRefunded`, characterised by `Seqs.Filter` and `Segments.StatusSegments` |
| `Segments.Returning` | Streamlit.py:199-204 | completed rows whose normalised customer type is `returning`; characterised by `Seqs.Filter` and `Segments.CustomerSegments` |
| `Segments.New` | Streamlit.py:199-209 | completed rows whose normalised customer type is `new`; characterised by `Seqs.Filter` and `Segments.CustomerSegments` |
| `Segments.AddiTotal` | Streamlit.py:432-441 | completed rows whose normalised payment method is `addi`; characterised by `Seqs.Filter` and `Segments.AddiSegments` |
| `Segments.AddiShop` | Streamlit.py:444-446 | Addi rows whose normalised sub-type is `shop`; characterised by `Seqs.Filter` and `Segments.AddiSegments` |
| `Segments.AddiNormal` | Streamlit.py:449-451 | Addi rows whose normalised sub-type is empty; characterised by `Seqs.Filter`, `Segments.AddiSegments` and `Segments.BlankSubtypeSegments` |
| `Segments.StatusSegments` | Streamlit.py:49-56 | Completed and Refunded are disjoint subsequences of the rows, so their row counts add up to at most the total |
| `Segments.CustomerSegments` | Streamlit.py:199-209 | Returning and New are disjoint subsequences of Completed |
| `Segments.AddiSegments` | Streamlit.py:432-451 | Addi-Shop and Addi-Normal are disjoint subsequences of Addi-Total, which is a subsequence of Completed |
| `Segments.BlankSubtypeSegments` | Streamlit.py:416-451 | when every normalised sub-type is `''`, Addi-Shop is empty and Addi-Normal equals Addi-Total |
| `Aggregate.OrderIds` | Streamlit.py:216 | the distinct order numbers are exactly those in some row's non-empty `Pedido #` cell, and there are no more of them than rows |
| `Aggregate.DistinctOrders` | Streamlit.py:216-224 | `nunique` never exceeds the row count |
| `Aggregate.OrdersMonotone` | Streamlit.py:458-467 | a segment inside another has a subset of its orders, so no more distinct orders |
| `Aggregate.DistinctOrdersOfUniqueRows` | Streamlit.py:216 | when every row has its own non-empty order number, the distinct count equals the row count |
| `Aggregate.Ratio` | Streamlit.py:228-229 | 0 when the whole is not positive; otherwise ratio times whole is 100 times part; a part between 0 and the whole gives a value between 0 and 100 |
| `Aggregate.Average` | Streamlit.py:232-233 | 0 when the count is not positive; otherwise average times count is the total |
| `Aggregate.SumQuantity` | Streamlit.py:57 | the summed `Cantidad` of a segment, 0 when empty; a plain definition, bounded by `Aggregate.SumQuantityOfFilter` and used per group by `Aggregate.GroupQuantities` |
| `Aggregate.SumAmount` | Streamlit.py:58 | the summed net amount of a segment, 0 when empty (NaN is skipped, so an empty sales cell adds 0); a plain definition, used per group by `Aggregate.GroupAmounts` |
| `Aggregate.SumQuantityOfFilter` | Streamlit.py:57-66 | a segment's summed quantity never exceeds that of the rows it was selected from |
| `Aggregate.GroupQuantities` | Streamlit.py:64 | the group-by has exactly the labels some row carries, and each label's entry is the quantity sum over exactly the rows with that label |
| `Aggregate.GroupAmounts` | Streamlit.py:72-74 | the group-by has exactly the labels some row carries, and each label's entry is the net-sales sum over exactly the rows with that label |
| `Aggregate.GroupKeys` | Streamlit.py:64 | lists exactly the group labels |
| `Aggregate.Best` | Streamlit.py:69 | the chosen label has the largest value, and it is smaller than every other label with the same value |
| `Aggregate.TopByQuantity` | Streamlit.py:64-73 | none exactly when no row has a label; otherwise a group with maximal summed quantity, and among tied groups the smallest label |
| `Aggregate.TieBrokenTopUnique` | Streamlit.py:69 | at most one label is a maximal group that is smaller than every tied group, so the reported top label is determined by the rows |
| `Report.Summarize` | Streamlit.py:55-77 | fails exactly when a top group-by is empty. Otherwise: completed + refunded rows are at most the total; the top product and payment are maximal groups (lines 64 and 73), and the origin is the maximal group with the smallest label among ties (line 69), which `Aggregate.TieBrokenTopUnique` shows is unique; the product's units are its group's quantity sum, within units sold; the payment's value and distinct orders are over exactly the rows with that label, and those orders are within the completed orders |
| `Report.RepurchaseOf` | Streamlit.py:215-229 | returning and new distinct orders are each within the completed orders, and their shares lie in [0, 100] (0 when there are no orders) |
| `Report.CustomerOrderBounds` | Streamlit.py:216-224 | returning and new customers each have no more distinct orders than Completed |
| `Report.AddiSplitOf` | Streamlit.py:458-471 | the distinct orders, amount sums and shop shares of the three Addi segments; a plain definition, bounded by `Report.AddiOf` |
| `Report.AddiOf` | Streamlit.py:438-471 | Addi-Shop and Addi-Normal orders are within the Addi-Total orders; the shop share lies in [0, 100]; with every sub-type blank, shop is zero and normal equals the total |
| `Report.WithCustomerNorm` | Streamlit.py:196 | `tipo_cliente_norm` holds the normalised customer type when a column was found; nothing else changes |
| `Report.WithBlankSubtype` | Streamlit.py:416-419 | when no sub-type column was found every row gains an empty `tipo_pago` cell; otherwise the frame is unchanged, and no other column ever changes |
| `Report.WithPaymentNorms` | Streamlit.py:416-429 | `pago_norm` holds the normalised payment method; `tipo_pago_norm` is `''` everywhere when no column was found, and otherwise the normalised resolved column; status is untouched |
| `Report.CustomerStepHeaders` | Streamlit.py:385-388 | the `df.columns` the sub-type resolver searches: `tipo_cliente_norm` is appended only when a customer-type column was found; used in the contracts of `Report.Analyse` and `Report.Generate` |
| `Report.Analyse` | Streamlit.py:176-471 | on a prepared frame: the returning/new analysis exists exactly when a customer-type column is found, uses that column, has returning and new orders within the completed orders and both order shares in [0, 100]; the Addi source is the sub-type column resolved after the customer-type step, shop and normal orders are within the Addi orders, the shop share is in [0, 100], and a blank sub-type column makes shop zero and normal equal the total |
| `Report.Generate` | Streamlit.py:44-471 | for a well-formed sheet, succeeds exactly when every amount parses and the three top groups of the completed sales exist; fails with a parse error exactly when some row's amount does not parse, and names such a row. On success: the summary is that of the prepared rows; the Addi source is the sub-type column resolved over the headers after the customer-type step; the returning/new analysis uses the resolved customer-type column; completed + refunded rows are at most the total; the returning/new analysis is present exactly when a customer-type column is found; the returning and new orders are within the completed orders with both shares in [0, 100]; the Addi shop and normal orders are within the Addi orders with the shop share in [0, 100]; a blank sub-type column makes Addi-Shop zero and Addi-Normal equal Addi-Total |

## Left out

- Loading (lines 24-33): the CSV fetch, caching and the sheet URL. The model starts from the
  loaded sheet, whose column names are already stripped (line 30).
- Float conversion: `astype(float)` and `str(float)` are the caller-supplied `FloatSyntax`
  functions. NaN is not a real number, so an empty sales cell's amount counts as 0. pandas
  skips NaN in sums, which gives the same sums. A sales text such as `"nan"` that parses to NaN
  is outside the model.
- Rendering: every `st.*` call, the HTML/CSS block, the metric and currency formatting, the
  debug expander, the column dump and the interactive table (lines 9-19, 83-119, 139-142,
  236-318 apart from the value shares computed at 272 and 278, 363-371, 380-382, 392, 401, 412,
  420 and 422-423, 476-555).
- Charts (lines 149-164, 329-358): plotting only.
- The joined list of refunded order numbers (lines 133-137) and the insight texts with their
  `> 25` and ticket comparison (lines 314-315): formatting only.
- Character classes: `\d` matches only ASCII digits, and `lower()` changes only A-Z. Python
  would also accept Unicode digits and lower-case non-ASCII letters.
- Missing fixed columns: when `Estado`, `pago`, `Pedido #`, `Producto(s)`, `Ventas netas` or
  `atribucion` is absent, the script raises `KeyError`. In a well-formed sheet (every row's
  cells among its columns, `Frame.WellFormed`, which `Report.Generate` requires) the model reads
  such a column as all empty cells (`Frame.AbsentColumnIsEmpty`); for `Ventas netas` that makes every amount 0 and the report succeeds. The
  script also reads `Fecha` when it renders (line 371 when a customer-type column was found,
  and lines 544-553 on every run), so a sheet without `Fecha` stops there with `KeyError`, after
  all the modelled values are computed. The model never reads `Fecha`, and `Report.Generate`
  succeeds on such a sheet.
- Machine arithmetic: amounts, their sums, the ratios and the averages are exact reals in the
  model. In the script they are float64 values that round (lines 58, 74, 130, 217-233, 272,
  278, 459-471). `Cantidad` is an int64 column whose sums at lines 57, 64, 69 and 73 wrap
  around on overflow; the model's quantity sums are unbounded naturals. Neither float64
  rounding nor int64 wrap-around is modelled.
- Duplicate column names, and pandas' type inference for cells. Every non-empty cell is
  modelled as text.
- Aggregate.TopByQuantity: at lines 64 and 73 the model always picks the smallest tied label.
  The script's unstable sort may pick any tied label there. Only the maximality part of the
  contract is what those lines promise.
- Report.RepurchaseOf: does not restate the ticket averages' relation to value and orders
  (lines 232-233). `Aggregate.Average` states that relation once.
- Text.Lower: ASCII letters only, as noted above.

=== FILE: aggregate.dfy ===
/**
 * Aggregates over a segment: row counts, quantity and amount sums, distinct order
 * numbers (`nunique`), zero-guarded ratios and averages, and the group-by sums with
 * the top group by quantity.
 */
module Aggregate {
  import opened Text
  import opened Wrappers
  import opened Frame
  import opened Seqs

  /** `['Cantidad'].sum()`. */
  function SumQuantity(rows: seq<Row>): nat {
    if |rows| == 0 then 0 else rows[0].quantity + SumQuantity(rows[1..])
  }

  /** `['Ventas netas (num)'].sum()`; an empty segment sums to 0. */
  function SumAmount(rows: seq<Row>): real {
    if |rows| == 0 then 0.0 else rows[0].amount + SumAmount(rows[1..])
  }

  /** A segment's quantity never exceeds that of the rows it was selected from. */
  lemma {:induction false} SumQuantityOfFilter(p: Row -> bool, rows: seq<Row>)
    ensures SumQuantity(Filter(p, rows)) <= SumQuantity(rows)
  {
    if |rows| > 0 {
      SumQuantityOfFilter(p, rows[1..]);
    }
  }

  /** The order number of a row, when its `Pedido #` cell is not empty. */
  ghost predicate HasOrder(rows: seq<Row>, o: string) {
    exists i :: 0 <= i < |rows| && Get(rows[i].cells, OrderCol) == Str(o)
  }

  /** The distinct non-empty order numbers of a segment. */
  function OrderIds(rows: seq<Row>): (r: set<string>)
    ensures forall o :: o in r <==> HasOrder(rows, o)
    ensures |r| <= |rows|
  {
    if |rows| == 0 then {}
    else
      var rest := OrderIds(rows[1..]);
      assert forall o :: HasOrder(rows, o) <==> Get(rows[0].cells, OrderCol) == Str(o) || HasOrder(rows[1..], o) by {
        forall o ensures HasOrder(rows, o) <==> Get(rows[0].cells, OrderCol) == Str(o) || HasOrder(rows[1..], o) {
          if HasOrder(rows, o) {
            var i :| 0 <= i < |rows| && Get(rows[i].cells, OrderCol) == Str(o);
            if i > 0 {
              assert rows[1..][i - 1] == rows[i];
            }
          }
          if HasOrder(rows[1..], o) {
            var i :| 0 <= i < |rows| - 1 && Get(rows[1..][i].cells, OrderCol) == Str(o);
            assert rows[i + 1] == rows[1..][i];
          }
        }
      }
      match Get(rows[0].cells, OrderCol)
      case Missing => rest
      case Str(o) => {o} + rest
  }

  /** `['Pedido #'].nunique()`: never more than the number of rows. */
  function DistinctOrders(rows: seq<Row>): (n: nat)
    ensures n <= |rows|
  {
    |OrderIds(rows)|
  }

  /** A segment contained in another has no more distinct orders than it. */
  lemma OrdersMonotone(a: seq<Row>, b: seq<Row>)
    requires forall x :: x in a ==> x in b
    ensures OrderIds(a) <= OrderIds(b)
    ensures DistinctOrders(a) <= DistinctOrders(b)
  {
    forall o | o in OrderIds(a) ensures o in OrderIds(b) {
      OrderCarried(a, b, o);
    }
    SubsetCard(OrderIds(a), OrderIds(b));
  }

  lemma SubsetCard(x: set<string>, y: set<string>)
    requires x <= y
    ensures |x| <= |y|
  {
    assert y == x + (y - x);
  }

  lemma OrderCarried(a: seq<Row>, b: seq<Row>, o: string)
    requires forall x :: x in a ==> x in b
    requires HasOrder(a, o)
    ensures HasOrder(b, o)
  {
    var i :| 0 <= i < |a| && Get(a[i].cells, OrderCol) == Str(o);
    var x := a[i];
    assert x in b;
    var j :| 0 <= j < |b| && b[j] == x;
    assert Get(b[j].cells, OrderCol) == Str(o);
  }

  /** Every row a different, non-empty order: the distinct count is the row count. */
  lemma {:induction false} DistinctOrdersOfUniqueRows(rows: seq<Row>)
    requires forall i :: 0 <= i < |rows| ==> Get(rows[i].cells, OrderCol).Str?
    requires forall i, j :: 0 <= i < j < |rows| ==> Get(rows[i].cells, OrderCol) != Get(rows[j].cells, OrderCol)
    ensures DistinctOrders(rows) == |rows|
  {
    if |rows| > 0 {
      var o := Get(rows[0].cells, OrderCol).s;
      assert forall i :: 0 <= i < |rows| - 1 ==> rows[1..][i] == rows[i + 1];
      DistinctOrdersOfUniqueRows(rows[1..]);
      assert !HasOrder(rows[1..], o);
      assert OrderIds(rows) == {o} + OrderIds(rows[1..]);
    }
  }

  /** `part / whole * 100 if whole > 0 else 0`. */
  function Ratio(part: real, whole: real): (r: real)
    ensures whole <= 0.0 ==> r == 0.0
    ensures whole > 0.0 ==> r * whole == part * 100.0
    ensures 0.0 <= part <= whole ==> 0.0 <= r <= 100.0
  {
    if whole > 0.0 then part / whole * 100.0 else 0.0
  }

  /** `total / count if count > 0 else 0`. */
  function Average(total: real, count: int): (r: real)
    ensures count <= 0 ==> r == 0.0
    ensures count > 0 ==> r * count as real == total
  {
    if count > 0 then total / count as real else 0.0
  }

  /** The rows of group `k` in a group-by over column `col`. */
  function HasKey(col: string, k: string): Row -> bool {
    (r: Row) => Get(r.cells, col) == Str(k)
  }

  function GroupRows(rows: seq<Row>, col: string, k: string): seq<Row> {
    Filter(HasKey(col, k), rows)
  }

  /** `k` is a group of the group-by: some row has it in `col` (an empty cell forms no group). */
  predicate IsGroup(rows: seq<Row>, col: string, k: string) {
    |GroupRows(rows, col, k)| > 0
  }

  /** `groupby(col)['Cantidad'].sum()`, accumulated row by row. */
  function GroupQuantities(rows: seq<Row>, col: string): (m: map<string, nat>)
    ensures forall k :: k in m <==> IsGroup(rows, col, k)
    ensures forall k :: k in m ==> m[k] == SumQuantity(GroupRows(rows, col, k))
  {
    if |rows| == 0 then map[]
    else
      var m := GroupQuantities(rows[1..], col);
      match Get(rows[0].cells, col)
      case Missing => m
      case Str(k) => m[k := rows[0].quantity + (if k in m then m[k] else 0)]
  }

  /** `groupby(col)['Ventas netas (num)'].sum()`, accumulated row by row. */
  function GroupAmounts(rows: seq<Row>, col: string): (m: map<string, real>)
    ensures forall k :: k in m <==> IsGroup(rows, col, k)
    ensures forall k :: k in m ==> m[k] == SumAmount(GroupRows(rows, col, k))
  {
    if |rows| == 0 then map[]
    else
      var m := GroupAmounts(rows[1..], col);
      match Get(rows[0].cells, col)
      case Missing => m
      case Str(k) => m[k := rows[0].amount + (if k in m then m[k] else 0.0)]
  }

  /** The group labels, each once. */
  function GroupKeys(rows: seq<Row>, col: string): (ks: seq<string>)
    ensures forall k :: k in ks <==> IsGroup(rows, col, k)
  {
    if |rows| == 0 then []
    else
      var ks := GroupKeys(rows[1..], col);
      match Get(rows[0].cells, col)
      case Missing => ks
      case Str(k) => if k in ks then ks else [k] + ks
  }

  /** The key with the largest value; among equal values, the smallest key. */
  function Best(keys: seq<string>, m: map<string, nat>): (b: string)
    requires |keys| > 0 && forall k :: k in keys ==> k in m
    ensures b in keys
    ensures forall k :: k in keys ==> m[k] <= m[b]
    ensures forall k :: k in keys && k != b && m[k] == m[b] ==> LexLess(b, k)
  {
    if |keys| == 1 then keys[0]
    else
      var first := keys[0];
      var b := Best(keys[1..], m);
      assert keys == [first] + keys[1..];
      if m[first] > m[b] || (m[first] == m[b] && LexLess(first, b)) then
        assert forall k :: k in keys[1..] && k != first && m[k] == m[first] ==> LexLess(first, k) by {
          forall k | k in keys[1..] && k != first && m[k] == m[first]
            ensures LexLess(first, k)
          {
            if k != b {
              LexLessTransitive(first, b, k);
            }
          }
        }
        first
      else
        assert first != b && m[first] == m[b] ==> LexLess(b, first) by {
          if first != b && m[first] == m[b] {
            LexLessTotal(first, b);
          }
        }
        b
  }

  /** `k` is a top group by quantity: a group whose summed quantity no other group exceeds. */
  ghost predicate IsTopGroup(rows: seq<Row>, col: string, k: string) {
    && IsGroup(rows, col, k)
    && forall k' :: IsGroup(rows, col, k') ==>
         SumQuantity(GroupRows(rows, col, k')) <= SumQuantity(GroupRows(rows, col, k))
  }

  /** `k` is the top group once ties go to the smallest label. */
  ghost predicate IsTieBrokenTop(rows: seq<Row>, col: string, k: string) {
    && IsTopGroup(rows, col, k)
    && forall k' :: (IsGroup(rows, col, k') && k' != k
                     && SumQuantity(GroupRows(rows, col, k')) == SumQuantity(GroupRows(rows, col, k)))
                    ==> LexLess(k, k')
  }

  /** The smallest-label tie-break leaves exactly one top group: the label line 69 reports is
      determined by the rows alone. */
  lemma {:induction false} TieBrokenTopUnique(rows: seq<Row>, col: string, a: string, b: string)
    requires IsTieBrokenTop(rows, col, a) && IsTieBrokenTop(rows, col, b)
    ensures a == b
  {
    LexLessIrreflexive(a);
    if a != b {
      LexLessTransitive(a, b, a);
    }
  }

  /** The top group by summed quantity, ties going to the smallest label
      (`nlargest(1)` over the label-sorted group-by); none when no row has a label. */
  function TopByQuantity(rows: seq<Row>, col: string): (r: Option<string>)
    ensures r.None? <==> forall k :: !IsGroup(rows, col, k)
    ensures r.Some? ==> IsTieBrokenTop(rows, col, r.value)
  {
    var ks := GroupKeys(rows, col);
    if |ks| == 0 then None
    else
      var m := GroupQuantities(rows, col);
      Some(Best(ks, m))
  }
}

=== FILE: frame.dfy ===
/**
 * The data frame the report works on: the loaded sheet's cells by column name,
 * the derived numeric columns added by the preprocessing step (lines 44 and 47),
 * column assignment, and the categorical normalisations.
 */
module Frame {
  import opened Text
  import opened Wrappers
  import opened Quantity
  import opened Money

  /** A sheet cell: empty in the export (pandas NaN) or a text value. */
  datatype Cell = Missing | Str(s: string)

  /** One data-frame row: its cells by column name, plus the numeric values held in the
      derived `Cantidad` and `Ventas netas (num)` columns (a NaN amount counts as 0, which
      is what pandas' NaN-skipping sums give). */
  datatype Row = Row(cells: map<string, Cell>, quantity: nat, amount: real)

  /** The sheet as loaded, with column names already stripped of surrounding whitespace. */
  datatype Sheet = Sheet(headers: seq<string>, rows: seq<map<string, Cell>>)

  /** Every row's cells belong to the sheet's columns, as in any loaded data frame. */
  predicate WellFormed(sheet: Sheet) {
    forall i, h :: 0 <= i < |sheet.rows| && h in sheet.rows[i] ==> h in sheet.headers
  }

  /** The data frame: column names in order and the rows. */
  datatype Frame = Frame(headers: seq<string>, rows: seq<Row>)

  /** Float parsing (`astype(float)`) and float-to-text (`str(float)`) are outside this model
      and supplied by the caller. */
  datatype FloatSyntax = FloatSyntax(parse: string -> Option<real>, show: real -> string)

  const OrderCol := "Pedido #"
  const ProductCol := "Producto(s)"
  const SalesCol := "Ventas netas"
  const StatusCol := "Estado"
  const PaymentCol := "pago"
  const AttributionCol := "atribucion"
  const QuantityCol := "Cantidad"
  const AmountCol := "Ventas netas (num)"

  /** The cell of a column; a column the row does not have reads as empty. */
  function Get(cells: map<string, Cell>, col: string): Cell {
    if col in cells then cells[col] else Missing
  }

  /** `astype(str)`: an empty cell becomes the text "nan". */
  function AsStr(c: Cell): string {
    match c
    case Missing => "nan"
    case Str(s) => s
  }

  /** Categorical normalisation for customer type and payment sub-type (lines 196 and 429):
      an empty cell becomes the empty text, and text is stripped and lower-cased. */
  function NormCategory(c: Cell): (r: string)
    ensures Trimmed(r) && IsLowerCase(r)
    ensures c.Missing? ==> r == ""
  {
    match c
    case Missing => ""
    case Str(s) => Norm(s)
  }

  /** Normalising an already normalised value changes nothing. */
  lemma NormCategoryIdempotent(c: Cell)
    ensures NormCategory(Str(NormCategory(c))) == NormCategory(c)
  {
  }

  /** Normalisation of the payment method (line 426). Empty cells are not filled first, so an
      empty cell becomes the text "nan"; other text is stripped and lower-cased. */
  function NormPayment(c: Cell): (r: string)
    ensures Trimmed(r) && IsLowerCase(r)
    ensures c.Missing? ==> r == "nan"
    ensures c.Str? ==> r == NormCategory(c)
  {
    assert Trimmed("nan") && IsLowerCase("nan");
    Norm(AsStr(c))
  }

  /** `.str.lower() == v` on the status column (lines 49-50): lower-cased but not stripped,
      and an empty cell never matches. */
  predicate StatusIs(c: Cell, v: string) {
    c.Str? && Lower(c.s) == v
  }

  /** `df[name] = ...` on the column list: a new name goes at the end, an existing one stays put. */
  function AddColumn(headers: seq<string>, name: string): (r: seq<string>)
    ensures name in r
    ensures |headers| <= |r| <= |headers| + 1 && r[..|headers|] == headers
    ensures name in headers ==> r == headers
  {
    if name in headers then headers else headers + [name]
  }

  /** `df[name] = v(row)` for every row: that column now holds `v`, and nothing else changes. */
  function Assign(f: Frame, name: string, v: Row -> Cell): (r: Frame)
    ensures r.headers == AddColumn(f.headers, name)
    ensures |r.rows| == |f.rows|
    ensures forall i :: 0 <= i < |f.rows| ==>
      && r.rows[i].quantity == f.rows[i].quantity
      && r.rows[i].amount == f.rows[i].amount
      && Get(r.rows[i].cells, name) == v(f.rows[i])
    ensures forall i, h :: 0 <= i < |f.rows| && h != name ==>
      Get(r.rows[i].cells, h) == Get(f.rows[i].cells, h)
  {
    Frame(AddColumn(f.headers, name),
          seq(|f.rows|, i requires 0 <= i < |f.rows| =>
            var row := f.rows[i];
            row.(cells := row.cells[name := v(row)])))
  }

  /** Whether a sheet row's net-sales text converts: an empty cell does (to NaN), a text one
      does when what is left after stripping `$` and `,` parses. */
  predicate SalesParse(cells: map<string, Cell>, fs: FloatSyntax) {
    match Get(cells, SalesCol)
    case Missing => true
    case Str(s) => fs.parse(StripMoney(s)).Some?
  }

  /** Lines 44 and 47 on one row: adds the quantity and the numeric amount, or fails when
      the net-sales text does not parse. */
  function PrepareRow(cells: map<string, Cell>, fs: FloatSyntax): (r: Option<Row>)
    ensures r.Some? <==> SalesParse(cells, fs)
    ensures r.Some? ==>
      && r.value.quantity == ExtractQuantity(AsStr(Get(cells, ProductCol)))
      && Get(r.value.cells, QuantityCol) == Str(Decimal(r.value.quantity))
      && (forall h :: h != QuantityCol && h != AmountCol ==> Get(r.value.cells, h) == Get(cells, h))
    ensures r.Some? && Get(cells, SalesCol).Missing? ==>
      r.value.amount == 0.0 && Get(r.value.cells, AmountCol) == Missing
    ensures r.Some? && Get(cells, SalesCol).Str? ==>
      && fs.parse(StripMoney(Get(cells, SalesCol).s)) == Some(r.value.amount)
      && Get(r.value.cells, AmountCol) == Str(fs.show(r.value.amount))
  {
    var q := ExtractQuantity(AsStr(Get(cells, ProductCol)));
    match Get(cells, SalesCol)
    case Missing => Some(Row(WithDerived(cells, q, Missing), q, 0.0))
    case Str(s) =>
      match fs.parse(StripMoney(s))
      case None => None
      case Some(x) => Some(Row(WithDerived(cells, q, Str(fs.show(x))), q, x))
  }

  /** The cells of a row after lines 44 and 47 write its quantity and amount columns. */
  function WithDerived(cells: map<string, Cell>, q: nat, amount: Cell): (r: map<string, Cell>)
    ensures Get(r, QuantityCol) == Str(Decimal(q)) && Get(r, AmountCol) == amount
    ensures forall h :: h != QuantityCol && h != AmountCol ==> Get(r, h) == Get(cells, h)
  {
    cells[QuantityCol := Str(Decimal(q))][AmountCol := amount]
  }

  /** In a well-formed sheet, a column the sheet lacks reads as empty in every row. */
  lemma AbsentColumnIsEmpty(sheet: Sheet, col: string)
    requires WellFormed(sheet) && col !in sheet.headers
    ensures forall i :: 0 <= i < |sheet.rows| ==> Get(sheet.rows[i], col) == Missing
  {
  }

  /** Index of the first row whose amount does not parse, if any. */
  function FirstUnparsed(rows: seq<map<string, Cell>>, fs: FloatSyntax): (r: Option<nat>)
    ensures r.None? <==> forall i :: 0 <= i < |rows| ==> SalesParse(rows[i], fs)
    ensures r.Some? ==>
      && r.value < |rows| && !SalesParse(rows[r.value], fs)
      && forall j :: 0 <= j < r.value ==> SalesParse(rows[j], fs)
  {
    if |rows| == 0 then None
    else if !SalesParse(rows[0], fs) then Some(0)
    else
      assert forall j :: 0 < j < |rows| ==> rows[1..][j - 1] == rows[j];
      match FirstUnparsed(rows[1..], fs)
      case None => None
      case Some(k) => Some(k + 1)
  }

  /** Preprocesses every row; fails with the index of the first row whose amount does not parse. */
  function PrepareRows(rows: seq<map<string, Cell>>, fs: FloatSyntax): (r: Result<seq<Row>, nat>)
    ensures r.Success? <==> forall i :: 0 <= i < |rows| ==> SalesParse(rows[i], fs)
    ensures r.Failure? ==> r.error < |rows| && !SalesParse(rows[r.error], fs)
    ensures r.Success? ==>
      |r.value| == |rows| && forall i :: 0 <= i < |rows| ==> Some(r.value[i]) == PrepareRow(rows[i], fs)
  {
    match FirstUnparsed(rows, fs)
    case Some(k) => Failure(k)
    case None => Success(seq(|rows|, i requires 0 <= i < |rows| => PrepareRow(rows[i], fs).value))
  }

  /** The column names after preprocessing: the sheet's, then `Cantidad` and `Ventas netas (num)`. */
  function PreparedHeaders(headers: seq<string>): seq<string> {
    AddColumn(AddColumn(headers, QuantityCol), AmountCol)
  }

  /** Preprocessing of the whole sheet: the frame gains the `Cantidad` and
      `Ventas netas (num)` columns. */
  function Prepare(sheet: Sheet, fs: FloatSyntax): (r: Result<Frame, nat>)
    ensures r.Success? <==> forall i :: 0 <= i < |sheet.rows| ==> SalesParse(sheet.rows[i], fs)
    ensures r.Failure? ==> r.error < |sheet.rows| && !SalesParse(sheet.rows[r.error], fs)
    ensures r.Success? ==>
      && r.value.headers == PreparedHeaders(sheet.headers)
      && |r.value.rows| == |sheet.rows|
      && forall i :: 0 <= i < |sheet.rows| ==> Some(r.value.rows[i]) == PrepareRow(sheet.rows[i], fs)
  {
    match PrepareRows(sheet.rows, fs)
    case Failure(k) => Failure(k)
    case Success(rows) =>
      Success(Frame(PreparedHeaders(sheet.headers), rows))
  }
}

=== FILE: money.dfy ===
/**
 * Net-sales text clean-up (line 47): every dollar sign and thousands separator is deleted
 * before the amount is parsed.
 */
module Money {
  import opened Seqs

  predicate IsMoneySymbol(c: char) { c == '$' || c == ',' }

  /** Deletes every `$` and `,`; all other characters stay, in their order and number. */
  function StripMoney(s: string): (r: string)
    ensures forall i :: 0 <= i < |r| ==> !IsMoneySymbol(r[i])
    ensures forall c :: !IsMoneySymbol(c) ==> multiset(r)[c] == multiset(s)[c]
    ensures Subseq(r, s)
  {
    if |s| == 0 then []
    else
      var rest := StripMoney(s[1..]);
      assert s == [s[0]] + s[1..];
      if IsMoneySymbol(s[0]) then
        assert Subseq(rest, s);
        rest
      else
        assert ([s[0]] + rest)[1..] == rest;
        [s[0]] + rest
  }

  /** Stripping twice is stripping once. */
  lemma {:induction false} StripIdempotent(s: string)
    ensures StripMoney(StripMoney(s)) == StripMoney(s)
  {
    if |s| > 0 {
      StripIdempotent(s[1..]);
      var rest := StripMoney(s[1..]);
      if !IsMoneySymbol(s[0]) {
        assert ([s[0]] + rest)[1..] == rest;
      }
    }
  }
}

=== FILE: quantity.dfy ===
/**
 * Item quantity read from the product text (lines 36-42): once surrounding whitespace is
 * stripped, a run of leading decimal digits immediately followed by a multiplication marker
 * gives the count, and every other text counts as one item.
 */
module Quantity {
  import opened Text
  import opened Wrappers

  /** The two markers the pattern accepts: lower-case ASCII `x` and the sign `×`. */
  predicate IsMarker(c: char) { c == 'x' || c == '×' }

  /** Reference reading of the pattern: `t` starts with `k` >= 1 digits followed by a marker. */
  ghost predicate MatchesAt(t: string, k: int) {
    0 < k < |t| && AllDigits(t[..k]) && IsMarker(t[k])
  }

  /** The pattern matches at most one way: the digit group is the whole leading digit run. */
  lemma MatchUnique(t: string, k: int, k': int)
    requires MatchesAt(t, k) && MatchesAt(t, k')
    ensures k == k'
  {
  }

  /** Length of the digit group when the pattern matches at the start of `t`. */
  function DigitGroup(t: string): (m: Option<nat>)
    ensures m.Some? ==> MatchesAt(t, m.value)
    ensures m.None? ==> forall k :: !MatchesAt(t, k)
  {
    var k := LeadingDigits(t);
    assert forall k' :: MatchesAt(t, k') ==> k' == k by {
      forall k' | MatchesAt(t, k') ensures k' == k {
        assert forall j :: 0 <= j < k' ==> IsDigit(t[j]) by {
          forall j | 0 <= j < k' ensures IsDigit(t[j]) { assert t[..k'][j] == t[j]; }
        }
      }
    }
    if 0 < k < |t| && IsMarker(t[k]) then Some(k) else None
  }

  /** `extraer_cantidad`: the number before the marker, or 1 when the text does not start that way. */
  function ExtractQuantity(text: string): (q: nat)
    ensures forall k :: MatchesAt(Trim(text), k) ==> q == DigitsValue(Trim(text)[..k])
    ensures (forall k :: !MatchesAt(Trim(text), k)) ==> q == 1
  {
    var t := Trim(text);
    match DigitGroup(t)
    case Some(k) =>
      assert forall k' :: MatchesAt(t, k') ==> k' == k by {
        forall k' | MatchesAt(t, k') ensures k' == k { MatchUnique(t, k, k'); }
      }
      DigitsValue(t[..k])
    case None => 1
  }

  /** Writing a count, a marker and any further text reads the count back. */
  lemma QuantityRoundTrip(n: nat, marker: char, rest: string)
    requires IsMarker(marker)
    ensures ExtractQuantity(Decimal(n) + [marker] + rest) == n
  {
    var d := Decimal(n);
    var s := d + [marker] + rest;
    assert !IsSpace(s[0]) && !IsSpace(s[|d|]);
    TrimKeepsCore(s, |d|);
    var t := Trim(s);
    assert t[..|d| + 1] == s[..|d| + 1];
    assert t[..|d|] == d by {
      assert t[..|d|] == t[..|d| + 1][..|d|];
      assert s[..|d| + 1][..|d|] == d;
    }
    assert t[|d|] == marker by {
      assert t[|d|] == t[..|d| + 1][|d|];
    }
    assert MatchesAt(t, |d|);
  }

  /** A zero count is read as zero: the extracted quantity is not always at least one. */
  lemma ZeroCountGivesZero()
    ensures ExtractQuantity("0x") == 0
  {
    assert Trimmed("0x");
    assert Trim("0x") == "0x";
    assert MatchesAt("0x", 1);
  }
}

=== FILE: report.dfy ===
/**
 * The report pipeline: preprocessing, the headline metrics and top groups
 * (lines 44-77, 130), the returning/new analysis (176-233, 272-278) and the
 * Addi analysis (385-471), each a pure function of the loaded sheet.
 */
module Report {
  import opened Text
  import opened Wrappers
  import opened Frame
  import opened Resolve
  import opened Seqs
  import opened Segments
  import opened Aggregate

  /** Where the script stops: an amount that does not parse (line 47), or a group-by with no
      groups whose first entry is read (lines 65, 69, 73). */
  datatype ReportError = ParseError(row: nat) | NoGroups(column: string)

  datatype TopProduct = TopProduct(name: string, units: nat)
  datatype TopPayment = TopPayment(name: string, value: real, orders: nat)

  /** Headline metrics over Completed and Refunded. */
  datatype Summary = Summary(
    completedRows: nat, refundedRows: nat, unitsSold: nat, totalMoney: real, refundedMoney: real,
    product: TopProduct, origin: string, payment: TopPayment)

  /** Returning and new customers among completed sales. */
  datatype Repurchase = Repurchase(
    column: string, orders: nat, value: real,
    returningOrders: nat, returningValue: real, newOrders: nat, newValue: real,
    returningShare: real, newShare: real, returningValueShare: real, newValueShare: real,
    returningTicket: real, newTicket: real)

  /** Completed Addi sales split by payment sub-type. */
  datatype AddiSplit = AddiSplit(
    source: SubtypeSource, orders: nat, value: real,
    shopOrders: nat, shopValue: real, normalOrders: nat, normalValue: real,
    shopShare: real, shopValueShare: real)

  datatype Report = Report(summary: Summary, repurchase: Option<Repurchase>, addi: AddiSplit)

  /** Lines 55-77 and 130: counts, sums and the top product, origin and payment method. */
  function Summarize(rows: seq<Row>): (r: Result<Summary, ReportError>)
    ensures r.Failure? <==>
      || TopByQuantity(Completed(rows), ProductCol).None?
      || TopByQuantity(Completed(rows), AttributionCol).None?
      || TopByQuantity(Completed(rows), PaymentCol).None?
    ensures r.Success? ==> r.value.completedRows + r.value.refundedRows <= |rows|
    ensures r.Success? ==>
      var c := Completed(rows);
      && IsTopGroup(c, ProductCol, r.value.product.name)
      && r.value.product.units == SumQuantity(GroupRows(c, ProductCol, r.value.product.name))
      && r.value.product.units <= r.value.unitsSold
      && IsTieBrokenTop(c, AttributionCol, r.value.origin)
      && IsTopGroup(c, PaymentCol, r.value.payment.name)
      && r.value.payment.value == SumAmount(GroupRows(c, PaymentCol, r.value.payment.name))
      && r.value.payment.orders == DistinctOrders(GroupRows(c, PaymentCol, r.value.payment.name))
      && r.value.payment.orders <= DistinctOrders(c)
  {
    var completed := Completed(rows);
    var refunded := Refunded(rows);
    StatusSegments(rows);
    match TopByQuantity(completed, ProductCol)
    case None => Failure(NoGroups(ProductCol))
    case Some(product) =>
      match TopByQuantity(completed, AttributionCol)
      case None => Failure(NoGroups(AttributionCol))
      case Some(origin) =>
        match TopByQuantity(completed, PaymentCol)
        case None => Failure(NoGroups(PaymentCol))
        case Some(payment) =>
          var units := GroupQuantities(completed, ProductCol)[product];
          var value := GroupAmounts(completed, PaymentCol)[payment];
          var paid := GroupRows(completed, PaymentCol, payment);
          SumQuantityOfFilter(HasKey(ProductCol, product), completed);
          OrdersMonotone(paid, completed);
          Success(Summary(
            |completed|, |refunded|, SumQuantity(completed), SumAmount(completed), SumAmount(refunded),
            TopProduct(product, units), origin, TopPayment(payment, value, DistinctOrders(paid))))
  }

  /** Lines 196-233 and 272-278, over rows whose `tipo_cliente_norm` column is filled. */
  function RepurchaseOf(rows: seq<Row>, column: string): (r: Repurchase)
    ensures r.returningOrders <= r.orders && r.newOrders <= r.orders
    ensures 0.0 <= r.returningShare <= 100.0 && 0.0 <= r.newShare <= 100.0
    ensures r.orders == 0 ==> r.returningShare == 0.0 && r.newShare == 0.0
  {
    var c := Completed(rows);
    var returning := Returning(rows);
    var newcomers := New(rows);
    CustomerOrderBounds(rows);
    var orders := DistinctOrders(c);
    var value := SumAmount(c);
    var ro := DistinctOrders(returning);
    var rv := SumAmount(returning);
    var no := DistinctOrders(newcomers);
    var nv := SumAmount(newcomers);
    Repurchase(
      column, orders, value, ro, rv, no, nv,
      Ratio(ro as real, orders as real), Ratio(no as real, orders as real),
      Ratio(rv, value), Ratio(nv, value),
      Average(rv, ro), Average(nv, no))
  }

  /** Returning and new customers each place no more distinct orders than all completed sales. */
  lemma CustomerOrderBounds(rows: seq<Row>)
    ensures DistinctOrders(Returning(rows)) <= DistinctOrders(Completed(rows))
    ensures DistinctOrders(New(rows)) <= DistinctOrders(Completed(rows))
  {
    var c := Completed(rows);
    CustomerSegments(rows);
    SubseqMembers(Returning(rows), c);
    SubseqMembers(New(rows), c);
    OrdersMonotone(Returning(rows), c);
    OrdersMonotone(New(rows), c);
  }

  /** Lines 432-471, over rows whose `pago_norm` and `tipo_pago_norm` columns are filled. */
  function AddiOf(rows: seq<Row>, source: SubtypeSource): (r: AddiSplit)
    ensures r.source == source
    ensures r.shopOrders <= r.orders && r.normalOrders <= r.orders
    ensures 0.0 <= r.shopShare <= 100.0
    ensures r.orders == 0 ==> r.shopShare == 0.0
    ensures (forall x :: x in rows ==> Get(x.cells, SubtypeNormCol) == Str("")) ==>
      r.shopOrders == 0 && r.shopValue == 0.0 && r.normalOrders == r.orders && r.normalValue == r.value
  {
    var total := AddiTotal(rows);
    var shop := AddiShop(rows);
    var normal := AddiNormal(rows);
    AddiSegments(rows);
    SubseqMembers(shop, total);
    SubseqMembers(normal, total);
    OrdersMonotone(shop, total);
    OrdersMonotone(normal, total);
    BlankSubtypeSegments(rows);
    AddiSplitOf(total, shop, normal, source)
  }

  function AddiSplitOf(total: seq<Row>, shop: seq<Row>, normal: seq<Row>, source: SubtypeSource): AddiSplit {
    var orders := DistinctOrders(total);
    var value := SumAmount(total);
    var so := DistinctOrders(shop);
    var sv := SumAmount(shop);
    AddiSplit(source, orders, value, so, sv, DistinctOrders(normal), SumAmount(normal),
              Ratio(so as real, orders as real), Ratio(sv, value))
  }

  /** Line 196: `tipo_cliente_norm` from the resolved customer-type column, when there is one. */
  function WithCustomerNorm(f: Frame, column: Option<string>): (g: Frame)
    ensures |g.rows| == |f.rows|
    ensures column.None? ==> g == f
    ensures column.Some? ==> g.headers == AddColumn(f.headers, CustomerNormCol)
    ensures column.Some? ==> forall i :: 0 <= i < |f.rows| ==>
      Get(g.rows[i].cells, CustomerNormCol) == Str(NormCategory(Get(f.rows[i].cells, column.value)))
    ensures forall i, h :: 0 <= i < |f.rows| && h != CustomerNormCol ==>
      Get(g.rows[i].cells, h) == Get(f.rows[i].cells, h)
    ensures forall i :: 0 <= i < |f.rows| ==>
      g.rows[i].quantity == f.rows[i].quantity && g.rows[i].amount == f.rows[i].amount
  {
    match column
    case None => f
    case Some(c) => Assign(f, CustomerNormCol, (r: Row) => Str(NormCategory(Get(r.cells, c))))
  }

  /** Lines 416-419: the blank `tipo_pago` column, created only when no sub-type column was found. */
  function WithBlankSubtype(f: Frame, source: SubtypeSource): (g: Frame)
    ensures |g.rows| == |f.rows|
    ensures source.Named? ==> g == f
    ensures source.Blank? ==> forall i :: 0 <= i < |f.rows| ==> Get(g.rows[i].cells, BlankSubtypeCol) == Str("")
    ensures forall i, h :: 0 <= i < |f.rows| && h != BlankSubtypeCol ==>
      Get(g.rows[i].cells, h) == Get(f.rows[i].cells, h)
  {
    if source.Blank? then Assign(f, BlankSubtypeCol, (r: Row) => Str("")) else f
  }

  /** Lines 426-429: `pago_norm` and `tipo_pago_norm`, the latter read from the resolved column
      or from the blank one. */
  function WithPaymentNorms(f: Frame, source: SubtypeSource): (g: Frame)
    ensures |g.rows| == |f.rows|
    ensures forall i :: 0 <= i < |f.rows| ==>
      Get(g.rows[i].cells, PaymentNormCol) == Str(NormPayment(Get(f.rows[i].cells, PaymentCol)))
    ensures source.Blank? ==> forall i :: 0 <= i < |f.rows| ==> Get(g.rows[i].cells, SubtypeNormCol) == Str("")
    ensures source.Named? && source.column != PaymentNormCol ==> forall i :: 0 <= i < |f.rows| ==>
      Get(g.rows[i].cells, SubtypeNormCol) == Str(NormCategory(Get(f.rows[i].cells, source.column)))
    ensures forall i :: 0 <= i < |f.rows| ==> Get(g.rows[i].cells, StatusCol) == Get(f.rows[i].cells, StatusCol)
  {
    var withBlank := WithBlankSubtype(f, source);
    var column := if source.Blank? then BlankSubtypeCol else source.column;
    var withPayment := Assign(withBlank, PaymentNormCol, (r: Row) => Str(NormPayment(Get(r.cells, PaymentCol))));
    Assign(withPayment, SubtypeNormCol, (r: Row) => Str(NormCategory(Get(r.cells, column))))
  }

  /** The column names once the customer-type step has run: `tipo_cliente_norm` is appended
      when a customer-type column was found. */
  function CustomerStepHeaders(headers: seq<string>): seq<string> {
    if CustomerTypeColumn(headers).Some? then AddColumn(headers, CustomerNormCol) else headers
  }

  /** Lines 176-471 on a prepared frame whose headline metrics are known: the returning/new
      analysis when a customer-type column is found, and the Addi analysis. */
  function Analyse(f: Frame, summary: Summary): (r: Report)
    ensures r.summary == summary
    ensures r.repurchase.Some? <==> CustomerTypeColumn(f.headers).Some?
    ensures r.repurchase.Some? ==>
      var rp := r.repurchase.value;
      && rp.column == CustomerTypeColumn(f.headers).value
      && rp.returningOrders <= rp.orders && rp.newOrders <= rp.orders
      && 0.0 <= rp.returningShare <= 100.0 && 0.0 <= rp.newShare <= 100.0
    ensures r.addi.source == SubtypeColumn(CustomerStepHeaders(f.headers))
    ensures r.addi.shopOrders <= r.addi.orders && r.addi.normalOrders <= r.addi.orders
    ensures 0.0 <= r.addi.shopShare <= 100.0
    ensures r.addi.source.Blank? ==>
      && r.addi.shopOrders == 0 && r.addi.shopValue == 0.0
      && r.addi.normalOrders == r.addi.orders && r.addi.normalValue == r.addi.value
  {
    var customerCol := CustomerTypeColumn(f.headers);
    var f2 := WithCustomerNorm(f, customerCol);
    var repurchase := if customerCol.Some? then Some(RepurchaseOf(f2.rows, customerCol.value)) else None;
    var source := SubtypeColumn(f2.headers);
    var f3 := WithPaymentNorms(f2, source);
    assert source.Blank? ==> forall x :: x in f3.rows ==> Get(x.cells, SubtypeNormCol) == Str("");
    Report(summary, repurchase, AddiOf(f3.rows, source))
  }

  /** The whole report for a loaded sheet. It is produced exactly when every amount parses and
      the three top groups of the completed sales exist. */
  function Generate(sheet: Sheet, fs: FloatSyntax): (r: Result<Report, ReportError>)
    requires WellFormed(sheet)
    ensures r.Success? <==>
      && (forall i :: 0 <= i < |sheet.rows| ==> SalesParse(sheet.rows[i], fs))
      && Summarize(Prepare(sheet, fs).value.rows).Success?
    ensures (exists i :: 0 <= i < |sheet.rows| && !SalesParse(sheet.rows[i], fs)) <==> r.Failure? && r.error.ParseError?
    ensures r.Failure? && r.error.ParseError? ==>
      r.error.row < |sheet.rows| && !SalesParse(sheet.rows[r.error.row], fs)
    ensures r.Success? ==> r.value.summary.completedRows + r.value.summary.refundedRows <= |sheet.rows|
    ensures r.Success? ==>
      (r.value.repurchase.Some? <==> CustomerTypeColumn(PreparedHeaders(sheet.headers)).Some?)
    ensures r.Success? ==> r.value.summary == Summarize(Prepare(sheet, fs).value.rows).value
    ensures r.Success? && r.value.repurchase.Some? ==>
      r.value.repurchase.value.column == CustomerTypeColumn(PreparedHeaders(sheet.headers)).value
    ensures r.Success? ==> r.value.addi.source == SubtypeColumn(CustomerStepHeaders(PreparedHeaders(sheet.headers)))
    ensures r.Success? ==>
      && r.value.addi.shopOrders <= r.value.addi.orders && r.value.addi.normalOrders <= r.value.addi.orders
      && 0.0 <= r.value.addi.shopShare <= 100.0
    ensures r.Success? && r.value.repurchase.Some? ==>
      var rp := r.value.repurchase.value;
      && rp.returningOrders <= rp.orders && rp.newOrders <= rp.orders
      && 0.0 <= rp.returningShare <= 100.0 && 0.0 <= rp.newShare <= 100.0
    ensures r.Success? && r.value.addi.source.Blank? ==>
      && r.value.addi.shopOrders == 0 && r.value.addi.shopValue == 0.0
      && r.value.addi.normalOrders == r.value.addi.orders && r.value.addi.normalValue == r.value.addi.value
  {
    match Prepare(sheet, fs)
    case Failure(i) => Failure(ParseError(i))
    case Success(f) =>
      match Summarize(f.rows)
      case Failure(e) => Failure(e)
      case Success(summary) => Success(Analyse(f, summary))
  }
}

=== FILE: resolve.dfy ===
/**
 * Column resolution: finding the customer-type column (lines 176-189) and the
 * payment sub-type column (lines 385-419) among the frame's column names by an
 * ordered list of strategies, first success wins.
 */
module Resolve {
  import opened Text
  import opened Wrappers

  const CustomerTypeNames: seq<string> := ["Tipo de cliente", "tipo de cliente", "tipo_cliente", "tipo cliente"]
  const SubtypeNames: seq<string> := ["tipo pago", "tipo_pago", "tipopago", "Tipo pago", "Tipo Pago", "TIPO PAGO"]

  /** Position of the first element of `xs` satisfying `p`, if any. */
  function FirstIndex(xs: seq<string>, p: string -> bool): (r: Option<nat>)
    ensures r.None? <==> forall i :: 0 <= i < |xs| ==> !p(xs[i])
    ensures r.Some? ==> r.value < |xs| && p(xs[r.value]) && forall j :: 0 <= j < r.value ==> !p(xs[j])
  {
    if |xs| == 0 then None
    else if p(xs[0]) then Some(0)
    else
      assert forall j :: 0 < j < |xs| ==> xs[1..][j - 1] == xs[j];
      match FirstIndex(xs[1..], p)
      case None => None
      case Some(k) => Some(k + 1)
  }

  /** `names[i]` is the first name of the list, in list order, that is a column of `headers`. */
  ghost predicate FirstPresentAt(names: seq<string>, headers: seq<string>, i: int) {
    0 <= i < |names| && names[i] in headers && forall j :: 0 <= j < i ==> names[j] !in headers
  }

  /** Lines 179-182 and 389-393: the first known spelling, in list order, that is a column. */
  function FirstPresent(names: seq<string>, headers: seq<string>): (r: Option<string>)
    ensures r.None? <==> forall i :: 0 <= i < |names| ==> names[i] !in headers
    ensures r.Some? ==> exists i :: FirstPresentAt(names, headers, i) && names[i] == r.value
  {
    match FirstIndex(names, n => n in headers)
    case None => None
    case Some(i) =>
      assert FirstPresentAt(names, headers, i);
      Some(names[i])
  }

  /** `headers[i]` is the first column, in column order, satisfying `p`. */
  ghost predicate FirstHeaderAt(headers: seq<string>, p: string -> bool, i: int) {
    0 <= i < |headers| && p(headers[i]) && forall j :: 0 <= j < i ==> !p(headers[j])
  }

  /** Lines 186-189 and 397-402: the first column, in column order, satisfying `p`. */
  function FirstHeader(headers: seq<string>, p: string -> bool): (r: Option<string>)
    ensures r.None? <==> forall i :: 0 <= i < |headers| ==> !p(headers[i])
    ensures r.Some? ==> exists i :: FirstHeaderAt(headers, p, i) && headers[i] == r.value
  {
    match FirstIndex(headers, p)
    case None => None
    case Some(i) =>
      assert FirstHeaderAt(headers, p, i);
      Some(headers[i])
  }

  /** Line 187: the lower-cased name mentions both "tipo" and "cliente". */
  predicate MentionsCustomerType(h: string) {
    var l := Lower(h);
    Contains(l, "tipo") && Contains(l, "cliente")
  }

  /** Line 398-399: the lower-cased, stripped name mentions both "tipo" and "pago". */
  predicate MentionsPaymentType(h: string) {
    var l := Trim(Lower(h));
    Contains(l, "tipo") && Contains(l, "pago")
  }

  /** The customer-type column: a known spelling first, then a name search, else none
      (and the returning/new analysis is skipped). */
  function CustomerTypeColumn(headers: seq<string>): (r: Option<string>)
    ensures FirstPresent(CustomerTypeNames, headers).Some? ==> r == FirstPresent(CustomerTypeNames, headers)
    ensures FirstPresent(CustomerTypeNames, headers).None? ==> r == FirstHeader(headers, MentionsCustomerType)
    ensures r.Some? ==> r.value in headers
    ensures r.None? <==>
      (forall i :: 0 <= i < |CustomerTypeNames| ==> CustomerTypeNames[i] !in headers)
      && (forall i :: 0 <= i < |headers| ==> !MentionsCustomerType(headers[i]))
  {
    match FirstPresent(CustomerTypeNames, headers)
    case Some(name) => Some(name)
    case None => FirstHeader(headers, MentionsCustomerType)
  }

  /** Where the payment sub-type values come from: a resolved column, or the empty
      `tipo_pago` column created when every strategy fails (line 418). */
  datatype SubtypeSource = Named(column: string) | Blank

  /** `headers[i]` is the first `pago` column and another column follows it. */
  ghost predicate PaymentAt(headers: seq<string>, i: int) {
    0 <= i < |headers| - 1 && headers[i] == "pago" && forall j :: 0 <= j < i ==> headers[j] != "pago"
  }

  /** Lines 405-414: the column right after the first `pago` column, when `pago` exists and is
      not the last column. */
  function NextToPayment(headers: seq<string>): (r: Option<string>)
    ensures r.Some? <==> exists i :: PaymentAt(headers, i)
    ensures r.Some? ==> exists i :: PaymentAt(headers, i) && r.value == headers[i + 1]
  {
    match FirstIndex(headers, h => h == "pago")
    case None => None
    case Some(i) =>
      if i + 1 < |headers| then
        assert PaymentAt(headers, i);
        Some(headers[i + 1])
      else
        assert forall i' :: PaymentAt(headers, i') ==> i' == i;
        None
  }

  /** The payment sub-type column: known spelling, then name search, then the column after
      `pago`, else the blank column. */
  function SubtypeColumn(headers: seq<string>): (r: SubtypeSource)
    ensures FirstPresent(SubtypeNames, headers).Some? ==> r == Named(FirstPresent(SubtypeNames, headers).value)
    ensures FirstPresent(SubtypeNames, headers).None? && FirstHeader(headers, MentionsPaymentType).Some? ==>
      r == Named(FirstHeader(headers, MentionsPaymentType).value)
    ensures FirstPresent(SubtypeNames, headers).None? && FirstHeader(headers, MentionsPaymentType).None? ==>
      r == (if NextToPayment(headers).Some? then Named(NextToPayment(headers).value) else Blank)
    ensures r.Named? ==> r.column in headers
  {
    match FirstPresent(SubtypeNames, headers)
    case Some(name) => Named(name)
    case None =>
      match FirstHeader(headers, MentionsPaymentType)
      case Some(name) => Named(name)
      case None =>
        match NextToPayment(headers)
        case Some(name) => Named(name)
        case None => Blank
  }
}

=== FILE: segments.dfy ===
/**
 * The row segments of the report, each an order-preserving filter of the frame's rows:
 * Completed and Refunded (lines 49-50), Returning and New inside Completed (199-209),
 * and Addi-Total, Addi-Shop and Addi-Normal (432-451).
 */
module Segments {
  import opened Frame
  import opened Seqs

  const CustomerNormCol := "tipo_cliente_norm"
  const PaymentNormCol := "pago_norm"
  const SubtypeNormCol := "tipo_pago_norm"
  const BlankSubtypeCol := "tipo_pago"

  predicate IsCompleted(r: Row) { StatusIs(Get(r.cells, StatusCol), "completed") }
  predicate IsRefunded(r: Row) { StatusIs(Get(r.cells, StatusCol), "refunded") }
  predicate IsReturning(r: Row) { Get(r.cells, CustomerNormCol) == Str("returning") }
  predicate IsNew(r: Row) { Get(r.cells, CustomerNormCol) == Str("new") }
  predicate IsAddi(r: Row) { Get(r.cells, PaymentNormCol) == Str("addi") }
  predicate IsShop(r: Row) { Get(r.cells, SubtypeNormCol) == Str("shop") }
  predicate IsNoSubtype(r: Row) { Get(r.cells, SubtypeNormCol) == Str("") }

  function Completed(rows: seq<Row>): seq<Row> { Filter(IsCompleted, rows) }
  function Refunded(rows: seq<Row>): seq<Row> { Filter(IsRefunded, rows) }
  function Returning(rows: seq<Row>): seq<Row> { Filter(IsReturning, Completed(rows)) }
  function New(rows: seq<Row>): seq<Row> { Filter(IsNew, Completed(rows)) }
  function AddiTotal(rows: seq<Row>): seq<Row> { Filter(IsAddi, Completed(rows)) }
  function AddiShop(rows: seq<Row>): seq<Row> { Filter(IsShop, AddiTotal(rows)) }
  function AddiNormal(rows: seq<Row>): seq<Row> { Filter(IsNoSubtype, AddiTotal(rows)) }

  /** Completed and Refunded are disjoint subsequences of the rows, so together they never
      hold more rows than the frame. */
  lemma StatusSegments(rows: seq<Row>)
    ensures Subseq(Completed(rows), rows) && Subseq(Refunded(rows), rows)
    ensures forall r :: r in Completed(rows) ==> r !in Refunded(rows)
    ensures |Completed(rows)| + |Refunded(rows)| <= |rows|
  {
    FilterDisjointCount(IsCompleted, IsRefunded, rows);
  }

  /** Returning and New are disjoint subsequences of Completed. */
  lemma CustomerSegments(rows: seq<Row>)
    ensures Subseq(Returning(rows), Completed(rows)) && Subseq(New(rows), Completed(rows))
    ensures Subseq(Returning(rows), rows) && Subseq(New(rows), rows)
    ensures forall r :: r in Returning(rows) ==> r !in New(rows)
    ensures |Returning(rows)| + |New(rows)| <= |Completed(rows)|
  {
    var c := Completed(rows);
    SubseqTransitive(Returning(rows), c, rows);
    SubseqTransitive(New(rows), c, rows);
    FilterDisjointCount(IsReturning, IsNew, c);
  }

  /** Addi-Shop and Addi-Normal are disjoint subsequences of Addi-Total, itself a
      subsequence of Completed. */
  lemma AddiSegments(rows: seq<Row>)
    ensures Subseq(AddiTotal(rows), Completed(rows)) && Subseq(AddiTotal(rows), rows)
    ensures Subseq(AddiShop(rows), AddiTotal(rows)) && Subseq(AddiNormal(rows), AddiTotal(rows))
    ensures Subseq(AddiShop(rows), rows) && Subseq(AddiNormal(rows), rows)
    ensures forall r :: r in AddiShop(rows) ==> r !in AddiNormal(rows)
    ensures |AddiShop(rows)| + |AddiNormal(rows)| <= |AddiTotal(rows)|
  {
    var c := Completed(rows);
    var t := AddiTotal(rows);
    SubseqTransitive(t, c, rows);
    SubseqTransitive(AddiShop(rows), t, rows);
    SubseqTransitive(AddiNormal(rows), t, rows);
    FilterDisjointCount(IsShop, IsNoSubtype, t);
  }

  /** With every normalised sub-type empty, Addi-Shop is empty and Addi-Normal is all of Addi-Total. */
  lemma BlankSubtypeSegments(rows: seq<Row>)
    ensures (forall r :: r in rows ==> Get(r.cells, SubtypeNormCol) == Str("")) ==>
      AddiShop(rows) == [] && AddiNormal(rows) == AddiTotal(rows)
  {
    if forall r :: r in rows ==> Get(r.cells, SubtypeNormCol) == Str("") {
      var t := AddiTotal(rows);
      AddiSegments(rows);
      SubseqMembers(t, rows);
      FilterKeepsAll(IsNoSubtype, t);
      assert forall x :: x in t ==> !IsShop(x);
    }
  }
}

=== FILE: seqs.dfy ===
/**
 * Order-preserving filters over sequences: the shape of every boolean-mask
 * selection `df[mask]` in the report.
 */
module Seqs {

  /** `a` is obtained from `b` by deleting elements, keeping the rest in order. */
  ghost predicate Subseq<T>(a: seq<T>, b: seq<T>)
    decreases |b|
  {
    |a| == 0 || (|b| > 0 && ((a[0] == b[0] && Subseq(a[1..], b[1..])) || Subseq(a, b[1..])))
  }

  /** Every element of a subsequence occurs in the whole sequence. */
  lemma {:induction false} SubseqMembers<T>(a: seq<T>, b: seq<T>)
    requires Subseq(a, b)
    ensures forall x :: x in a ==> x in b
    ensures |a| <= |b|
    decreases |b|
  {
    if |a| > 0 {
      if a[0] == b[0] && Subseq(a[1..], b[1..]) {
        SubseqMembers(a[1..], b[1..]);
        assert a == [a[0]] + a[1..];
      } else {
        SubseqMembers(a, b[1..]);
      }
    }
  }

  /** A subsequence of a subsequence is a subsequence. */
  lemma {:induction false} SubseqTransitive<T>(a: seq<T>, b: seq<T>, c: seq<T>)
    requires Subseq(a, b) && Subseq(b, c)
    ensures Subseq(a, c)
    decreases |c|
  {
    if |a| == 0 {
    } else if b[0] == c[0] && Subseq(b[1..], c[1..]) {
      if a[0] == b[0] && Subseq(a[1..], b[1..]) {
        SubseqTransitive(a[1..], b[1..], c[1..]);
      } else {
        SubseqTransitive(a, b[1..], c[1..]);
      }
    } else {
      SubseqTransitive(a, b, c[1..]);
    }
  }

  /** The elements of `s` satisfying `p`, in their original order. */
  function Filter<T(==)>(p: T -> bool, s: seq<T>): (r: seq<T>)
    ensures forall x :: x in r ==> x in s && p(x)
    ensures forall x :: x in s && p(x) ==> x in r
    ensures |r| <= |s|
    ensures Subseq(r, s)
    ensures forall x {:trigger multiset(r)[x]} :: x in s ==> multiset(r)[x] == if p(x) then multiset(s)[x] else 0
  {
    if |s| == 0 then []
    else
      var rest := Filter(p, s[1..]);
      assert s == [s[0]] + s[1..];
      if p(s[0]) then
        assert ([s[0]] + rest)[1..] == rest;
        [s[0]] + rest
      else rest
  }

  /** Selecting with two predicates that never hold together takes at most `|s|` elements in all. */
  lemma {:induction false} FilterDisjointCount<T>(p: T -> bool, q: T -> bool, s: seq<T>)
    requires forall x :: !(p(x) && q(x))
    ensures |Filter(p, s)| + |Filter(q, s)| <= |s|
  {
    if |s| > 0 {
      FilterDisjointCount(p, q, s[1..]);
    }
  }

  /** A filter whose predicate holds of every element keeps the whole sequence. */
  lemma {:induction false} FilterKeepsAll<T>(p: T -> bool, s: seq<T>)
    requires forall x :: x in s ==> p(x)
    ensures Filter(p, s) == s
  {
    if |s| > 0 {
      FilterKeepsAll(p, s[1..]);
      assert s == [s[0]] + s[1..];
    }
  }
}

=== FILE: text.dfy ===
/**
 * Character and string helpers: the parts of Python's `str` behaviour the
 * report relies on (`strip()`, `lower()`, `in`, `<`, decimal digits).
 */
module Text {

  /** Python's `str.isspace()`: the characters `str.strip()` removes when given no argument. */
  predicate IsSpace(c: char) {
    || c == ' '
    || ('\t' <= c <= '\r')
    || ('\U{1c}' <= c <= '\U{1f}')
    || c == '\U{85}' || c == '\U{a0}' || c == '\U{1680}'
    || ('\U{2000}' <= c <= '\U{200a}')
    || c == '\U{2028}' || c == '\U{2029}' || c == '\U{202f}' || c == '\U{205f}' || c == '\U{3000}'
  }

  /** No whitespace at either end. */
  predicate Trimmed(s: string) {
    |s| == 0 || (!IsSpace(s[0]) && !IsSpace(s[|s| - 1]))
  }

  /** Removes leading whitespace: the result is a suffix of `s`, and what was cut is all whitespace. */
  function TrimLeft(s: string): (r: string)
    ensures |r| <= |s| && r == s[|s| - |r|..]
    ensures forall i :: 0 <= i < |s| - |r| ==> IsSpace(s[i])
    ensures |r| > 0 ==> !IsSpace(r[0])
  {
    if |s| > 0 && IsSpace(s[0]) then TrimLeft(s[1..]) else s
  }

  /** Removes trailing whitespace: the result is a prefix of `s`, and what was cut is all whitespace. */
  function TrimRight(s: string): (r: string)
    ensures |r| <= |s| && r == s[..|r|]
    ensures forall i :: |r| <= i < |s| ==> IsSpace(s[i])
    ensures |r| > 0 ==> !IsSpace(r[|r| - 1])
  {
    if |s| > 0 && IsSpace(s[|s| - 1]) then TrimRight(s[..|s| - 1]) else s
  }

  /** `r` is the slice `s[i..i + |r|]`, and everything of `s` outside that slice is whitespace. */
  ghost predicate CoreAt(s: string, r: string, i: int) {
    0 <= i <= |s| - |r| && r == s[i..i + |r|]
    && (forall j :: 0 <= j < i ==> IsSpace(s[j]))
    && (forall j :: i + |r| <= j < |s| ==> IsSpace(s[j]))
  }

  /** A suffix of `s` that cut only whitespace, followed by a prefix of that suffix that cut only
      whitespace, is the core of `s`; it is `s` itself when `s` has no whitespace at either end. */
  lemma StripBothEnds(s: string, left: string, r: string)
    requires |left| <= |s| && left == s[|s| - |left|..]
    requires forall j :: 0 <= j < |s| - |left| ==> IsSpace(s[j])
    requires |left| > 0 ==> !IsSpace(left[0])
    requires |r| <= |left| && r == left[..|r|]
    requires forall j :: |r| <= j < |left| ==> IsSpace(left[j])
    requires |r| > 0 ==> !IsSpace(r[|r| - 1])
    ensures Trimmed(r) && CoreAt(s, r, |s| - |left|)
    ensures Trimmed(s) ==> r == s
  {
    var i := |s| - |left|;
    assert forall j :: 0 <= j < |left| ==> left[j] == s[i + j];
    assert r == s[i..i + |r|];
    assert forall j :: i + |r| <= j < |s| ==> IsSpace(s[j]) by {
      forall j | i + |r| <= j < |s|
        ensures IsSpace(s[j])
      {
        assert s[j] == left[j - i];
      }
    }
    assert |r| > 0 ==> r[0] == left[0];
  }

  /** Python's `str.strip()`: exactly the leading and trailing whitespace goes. */
  function Trim(s: string): (r: string)
    ensures Trimmed(r)
    ensures exists i :: CoreAt(s, r, i)
    ensures Trimmed(s) ==> r == s
    ensures |r| <= |s|
  {
    var left := TrimLeft(s);
    var r := TrimRight(left);
    StripBothEnds(s, left, r);
    r
  }

  /** Trimming keeps a string whose first character and `j`-th character are not whitespace
      intact up to and including position `j`. */
  lemma TrimKeepsCore(s: string, j: nat)
    requires j < |s| && !IsSpace(s[0]) && !IsSpace(s[j])
    ensures j < |Trim(s)| && Trim(s)[..j + 1] == s[..j + 1]
  {
  }

  predicate IsUpper(c: char) { 'A' <= c <= 'Z' }

  /** Lower-cases one character; only the ASCII letters A-Z change. */
  function LowerChar(c: char): (d: char)
    ensures !IsUpper(d)
    ensures IsSpace(d) <==> IsSpace(c)
    ensures d != c ==> IsUpper(c) && d as int == c as int + 32
  {
    if IsUpper(c) then (c as int + 32) as char else c
  }

  predicate IsLowerCase(s: string) {
    forall i :: 0 <= i < |s| ==> !IsUpper(s[i])
  }

  /** Python's `str.lower()`, restricted to ASCII letters. */
  function Lower(s: string): (r: string)
    ensures |r| == |s| && IsLowerCase(r)
    ensures forall i :: 0 <= i < |s| ==> IsSpace(r[i]) == IsSpace(s[i])
    ensures forall i :: 0 <= i < |s| && r[i] != s[i] ==> IsUpper(s[i]) && r[i] as int == s[i] as int + 32
    ensures IsLowerCase(s) ==> r == s
  {
    seq(|s|, i requires 0 <= i < |s| => LowerChar(s[i]))
  }

  /** `.str.strip().str.lower()`, the normalisation applied to categorical columns. */
  function Norm(s: string): (r: string)
    ensures Trimmed(r) && IsLowerCase(r)
  {
    var t := Trim(s);
    var r := Lower(t);
    assert |r| > 0 ==> IsSpace(r[0]) == IsSpace(t[0]) && IsSpace(r[|r| - 1]) == IsSpace(t[|t| - 1]);
    r
  }

  /** The normalised value is the whitespace-bounded core of `s`, lower-cased character by character. */
  lemma NormOfCore(s: string)
    ensures exists i ::
              && CoreAt(s, Trim(s), i) && |Norm(s)| == |Trim(s)|
              && (forall j :: 0 <= j < |Norm(s)| ==> Norm(s)[j] == LowerChar(s[i + j]))
  {
    var t := Trim(s);
    var i :| CoreAt(s, t, i);
    var n := Norm(s);
    assert n == Lower(t);
    forall j | 0 <= j < |n|
      ensures n[j] == LowerChar(s[i + j])
    {
      assert t[j] == s[i + j];
    }
  }

  /** Normalising a normalised value changes nothing. */
  lemma NormIdempotent(s: string)
    ensures Norm(Norm(s)) == Norm(s)
  {
  }

  /** Python's `sub in s`, computed by trying every start position in turn. */
  predicate Contains(s: string, sub: string)
    decreases |s|
  {
    sub <= s || (|s| > 0 && Contains(s[1..], sub))
  }

  /** Reference definition of `sub in s`: some slice of `s` equals `sub`. */
  ghost predicate OccursAt(s: string, sub: string, i: int) {
    0 <= i && i + |sub| <= |s| && s[i..i + |sub|] == sub
  }

  /** The search agrees with the reference definition, in both directions. */
  lemma ContainsIffOccurs(s: string, sub: string)
    ensures Contains(s, sub) <==> exists i :: OccursAt(s, sub, i)
  {
    if Contains(s, sub) {
      var i := ContainsWitness(s, sub);
    }
    if exists i :: OccursAt(s, sub, i) {
      var i :| OccursAt(s, sub, i);
      OccursContains(s, sub, i);
    }
  }

  /** A position where the search succeeds. */
  lemma {:induction false} ContainsWitness(s: string, sub: string) returns (i: nat)
    requires Contains(s, sub)
    ensures OccursAt(s, sub, i)
    decreases |s|
  {
    if sub <= s {
      i := 0;
    } else {
      var j := ContainsWitness(s[1..], sub);
      assert s[1..][j..j + |sub|] == s[j + 1..j + 1 + |sub|];
      i := j + 1;
    }
  }

  /** The search finds every occurrence. */
  lemma {:induction false} OccursContains(s: string, sub: string, i: int)
    requires OccursAt(s, sub, i)
    ensures Contains(s, sub)
    decreases i
  {
    if i > 0 {
      assert s[1..][i - 1..i - 1 + |sub|] == s[i..i + |sub|];
      OccursContains(s[1..], sub, i - 1);
    } else {
      assert s[..|sub|] == sub;
    }
  }

  predicate IsDigit(c: char) { '0' <= c <= '9' }

  predicate AllDigits(s: string) {
    forall i :: 0 <= i < |s| ==> IsDigit(s[i])
  }

  /** Python's `int()` of a string of ASCII digits (leading zeros allowed). */
  function DigitsValue(ds: string): nat
    requires AllDigits(ds)
  {
    if |ds| == 0 then 0
    else DigitsValue(ds[..|ds| - 1]) * 10 + (ds[|ds| - 1] as int - '0' as int)
  }

  /** Python's `str()` of a natural number: its decimal digits with no leading zero (only 0
      itself starts with `0`), which read back as the number. */
  function Decimal(n: nat): (r: string)
    ensures |r| > 0 && AllDigits(r)
    ensures r[0] == '0' ==> n == 0
    ensures DigitsValue(r) == n
  {
    var d := ['0' + (n % 10) as char];
    if n < 10 then d
    else
      var high := Decimal(n / 10);
      assert (high + d)[0] == high[0];
      high + d
  }

  /** Number of ASCII digits at the start of `s`. */
  function LeadingDigits(s: string): (k: nat)
    ensures k <= |s| && AllDigits(s[..k])
    ensures k < |s| ==> !IsDigit(s[k])
  {
    if |s| > 0 && IsDigit(s[0]) then 1 + LeadingDigits(s[1..]) else 0
  }

  /** Python's `a < b` on strings: lexicographic by code point, a proper prefix first. */
  predicate LexLess(a: string, b: string)
    decreases |a|
  {
    |b| > 0 && (|a| == 0 || a[0] < b[0] || (a[0] == b[0] && LexLess(a[1..], b[1..])))
  }

  lemma {:induction false} LexLessIrreflexive(a: string)
    ensures !LexLess(a, a)
    decreases |a|
  {
    if |a| > 0 {
      LexLessIrreflexive(a[1..]);
    }
  }

  lemma {:induction false} LexLessTransitive(a: string, b: string, c: string)
    requires LexLess(a, b) && LexLess(b, c)
    ensures LexLess(a, c)
    decreases |a|
  {
    if |a| > 0 && a[0] == b[0] && b[0] == c[0] {
      LexLessTransitive(a[1..], b[1..], c[1..]);
    }
  }

  /** Any two different strings are ordered one way or the other. */
  lemma {:induction false} LexLessTotal(a: string, b: string)
    requires a != b
    ensures LexLess(a, b) || LexLess(b, a)
    decreases |a|
  {
    if |a| > 0 && |b| > 0 && a[0] == b[0] {
      assert a == [a[0]] + a[1..] && b == [b[0]] + b[1..];
      LexLessTotal(a[1..], b[1..]);
    }
  }
}

=== FILE: wrappers.dfy ===
/** Optional values and success-or-failure results used across the model. */
module Wrappers {

  datatype Option<+T> = None | Some(value: T)

  datatype Result<+R, +E> = Success(value: R) | Failure(error: E)
}
